=== FILE: README.md ===
# Chat server bookkeeping, modelled in Dafny

This project models the state machine behind the chat server in
`server.py`. Each step of the server is one method of the class
`Server.ChatServer`, taken as atomic. The state it models is:

- the `clients` registry, keyed by display name, with each entry's socket,
  address and last-active time;
- the parallel `client_locks` dictionary;
- the `message_history` log, which starts with three seeded entries;
- the broadcast queue of `(frame, excluded socket)` items;
- the set of client sockets the server has closed.

Sockets are opaque identities. Whether a send fails is given by the caller
as a set of failing sockets. Clock readings and timestamps are parameters.

Modules:

- `Wrappers`: the `Option` type.
- `Frames`: frames, notices, the seeded history, the handshake and the
  `User_<port>` fallback name.
- `Registry`: the `clients` dictionary as an association list in Python
  dict order. An overwrite keeps the key where it stands, a new key goes
  to the end and `del` filters the entry out. The lemmas state what
  `get`, assignment, `del` and the last-active update do to every key.
- `Fanout`: what one broadcast over a snapshot of the registry does. It
  gives which sockets are sent the frame, which clients stay, and the
  "left" notices and closed sockets that failed sends produce.
- `Session`: what a client's receive loop does with the sequence of reads
  it gets. It gives how many reads are handled, which frames enter the
  history, and which are queued.
- `Server`: the `ChatServer` class. Its methods change the fields in
  place, each is proved against the functions above, and `Valid()` is kept
  throughout. `Valid()` says that keys are unique and that both
  dictionaries have the same keys.

Registering a name that is already present silently replaces that entry
and its lock, rather than being rejected. Broadcast and cleanup visit
clients in dict insertion order, which the model keeps.

## Model

| member | source | states |
|---|---|---|
| Server.ChatServer.constructor | server.py:12-20 | The server starts with no clients, no locks, an empty queue and the three seeded history entries, and `Valid()` holds. |
| Server.ChatServer.Register | server.py:62-95 | If the handshake does not decode, only the socket is closed. Otherwise the name is stored with a fresh lock and the new entry replaces any entry of that name where it stands. Other locks are unchanged, the newcomer is sent the whole history as it was, and one join notice excluding the newcomer's socket is queued. The history is not changed. |
| Frames.DisplayNameChoice | server.py:65 | A present `username` key is used as it is, even when empty. Only a missing key gives `User_` followed by the port's decimal numeral. |
| Frames.FallbackNamesDistinct | server.py:65 | Clients without a username on different ports get different fallback names. |
| Frames.ParseDecimalOfDecimal | server.py:65 | The port numeral in a fallback name reads back as the port. |
| Server.ChatServer.SendMessageHistory | server.py:106-112 | The history frame goes to the given socket and carries the whole log in append order. |
| Registry.Find | server.py:124 | `clients.get(name)` finds an entry exactly when the key is present, and the entry it finds carries that key. |
| Registry.FindPut | server.py:70-74 | After an assignment the key maps to the new entry and every other key maps to what it did before. |
| Registry.PutNames | server.py:70-74 | An assignment adds its key to the key set and changes nothing else in it. |
| Registry.PutUnique | server.py:70-74 | An assignment keeps keys unique. |
| Registry.PutOrder | server.py:70-74 | A new key is appended at the end. An existing key keeps its position and only its entry changes. |
| Registry.FindDelete | server.py:158 | After `del` the key is absent and every other key maps to what it did before. |
| Registry.DeleteNames | server.py:158 | `del` removes exactly that key from the key set. |
| Registry.DeleteMembers | server.py:158 | The entries left after `del` are exactly the entries of other keys. |
| Registry.DeleteUnique | server.py:158 | `del` keeps keys unique. |
| Registry.DeleteAbsent | server.py:154 | Deleting an absent key leaves the table unchanged. |
| Registry.DeleteIdempotent | server.py:153-158 | Deleting a key twice is the same as deleting it once. |
| Registry.FindDeleteAt | server.py:156-158 | With unique keys, an entry's key finds that entry, and deleting the key leaves the entries before and after it in order. |
| Registry.FindTouch | server.py:140 | The last-active update changes the last_active of that key's entry only. Its socket, address and every other key are unchanged. |
| Registry.TouchShape | server.py:140 | The last-active update sets last_active on the entry of that key, where it stands, and leaves every other entry exactly as it was. |
| Registry.TouchOnlyLastActive | server.py:140 | The last-active update changes no entry's key, socket, address or position: at most last_active fields differ. |
| Registry.TouchNames | server.py:140 | The last-active update keeps the key set and its uniqueness. |
| Registry.DeleteTouch | server.py:140 | A last-active update is lost once that entry is deleted. |
| Registry.TouchKeeps | server.py:140 | A touched client is still registered on the same socket. |
| Server.ChatServer.Remove | server.py:153-167 | An absent name changes nothing. A present name is deleted from both dictionaries, every other entry is kept, and its socket is closed. Exactly one "left" notice with no exclusion is queued. The history is not changed. |
| Server.ChatServer.RemoveTwice | server.py:153-167 | Two removals of a name leave the registry, locks, queue and closed sockets as one removal does. |
| Server.ChatServer.HandleFrame | server.py:132-149 | An undecodable read or end of stream ends the loop and changes nothing. If the name's lock is missing, the loop also ends with no change. Otherwise only that client's last_active changes: every entry keeps its key, socket, address and position. A frame without "type" then ends the loop. A typed frame is stamped and appended to the history exactly when its type is "message". Every typed frame is queued excluding the sender's socket. |
| Session.Consumed | server.py:130-149 | The loop handles reads up to the first one that ends it: every earlier read continues, and the read it stops at does not. |
| Session.ChatLogIsChatEchoes | server.py:142-146 | The history gains exactly the "message"-typed frames among those queued, in the same order. |
| Session.SessionOutputs | server.py:137-146 | Every queued frame excludes its sender's socket. Every frame added to the history is a chat frame and is one of those reads with its time replaced by the server's stamp. No more frames are queued than reads are made. |
| Server.ChatServer.ReceiveLoop | server.py:130-149 | The loop handles exactly `Consumed(inputs)` reads. The history and the queue grow by their log and echoes, in order. The client stays registered on its socket. The registry keeps every entry's key, socket, address and position, so at most last_active fields change, and the locks and closed sockets do not change. |
| Server.ChatServer.HandleClient | server.py:123-151 | An unregistered name changes nothing. Otherwise the handled reads are logged and queued, and then the client is removed. The result is that its entry and lock are gone, its socket is closed, and its "left" notice follows its echoes in the queue. Other clients are unchanged. |
| Server.ChatServer.Broadcast | server.py:114-121 | The frame goes, in snapshot order, to every client whose socket is not excluded and whose send succeeds. The registry keeps exactly the other clients. Each failed send closes its socket and queues one "left" notice, and locks are only removed. |
| Server.ChatServer.SendTo | server.py:116-121 | An excluded entry is skipped. A successful send writes to that socket only. A failed send removes that one client, queues its notice and closes its socket. |
| Fanout.DeliveredIff | server.py:115-119 | A socket is sent the frame exactly when a snapshot entry owns it, it is not the excluded socket, and its send succeeds. |
| Fanout.ExcludedNeverDelivered | server.py:116 | The excluded socket is never sent the frame. |
| Fanout.NoExclusionReachesAll | server.py:114-119 | With no exclusion, every client whose send succeeds is sent the frame. |
| Fanout.SurvivorsIff | server.py:115-121 | After a broadcast the registry holds exactly the snapshot entries whose send did not fail. A failure removes only that client. |
| Fanout.DropNoticesIff | server.py:120-121 | A "left" notice with no exclusion is queued for a client exactly when its send failed. |
| Fanout.DropSocksIff | server.py:120-121 | A socket is closed by a broadcast exactly when it belongs to a client whose send failed. |
| Fanout.PartitionSize | server.py:115-121 | The clients kept and the notices queued together number the snapshot entries. |
| Fanout.SurvivorsShrink | server.py:115-121 | A broadcast never adds a client, and the clients it removes are as many as the notices it queues. |
| Server.ChatServer.ProcessOne | server.py:97-104 | On an empty queue nothing happens, locks included. Otherwise the oldest item is removed and broadcast. Its notices are queued after the remaining items, and locks are only removed, never added or replaced. |
| Server.ChatServer.Drain | server.py:97-104 | The queue ends empty. The final registry, the items broadcast in order and the sockets closed are those of `DrainRun`: take the oldest item, broadcast it to the registry as it stands, queue the notices of its failed sends behind the rest, and repeat. The history is unchanged, and no lock is added or replaced. |
| Fanout.DrainRunFifo | server.py:97-104 | The items queued when the consumer starts are broadcast first, in the order they were queued. |
| Fanout.DrainRunShrinks | server.py:97-121 | Draining never adds a client: the final registry holds only clients of the registry it started from. |
| Server.ChatServer.Cleanup | server.py:169-173 | The registry and the locks end empty. Every client registered at the start has its socket closed and its "left" notice queued, in registry order. The history is not changed. |

## Left out

- The client program (`client.py`) is not part of this model. It is a GUI with no server state.
- Socket I/O is not modelled. That covers accept, `recv(1024)`, send, close, bind and listen, and stream framing or partial reads. A read is given as end of stream, undecodable, or a decoded object.
- JSON encoding and decoding are not modelled. A frame is a record of four optional string fields. A JSON value that is not an object counts as undecodable. Non-string values and extra keys are not represented, including a `"username": null` handshake.
- Clock readings are parameters: `now` for last_active, and a string stamp for frame times and notices.
- Threads, `threading.Lock`, `queue.Queue` blocking and the races between unlocked dict accesses are not modelled. Each method is one atomic step.
- The operator console loop, `start`, `accept_connections` and the closing of the listening socket are not modelled.
- A failed history send is only printed by the server. It has no effect on the state and is not modelled.
- The `except: continue` in the queue consumer, and a `json.dumps` failure inside a broadcast, are not modelled. Every modelled frame serialises.
- The lock lookup inside a broadcast cannot fail while a broadcast runs atomically. It is not modelled.
- Server.ChatServer.Broadcast: all "left" notices produced by one broadcast share one stamp. The code takes a fresh time for each.
- Server.ChatServer.ReceiveLoop: it takes a finite sequence of reads, and running out of reads counts as end of stream.
- Server.ChatServer.HandleClient: it is one atomic step. Another registration under the same name cannot happen while the loop runs, so the case where a stale thread removes a newer client of that name is not captured.
- Server.ChatServer.Drain: all "left" notices queued during one drain share one stamp. The code takes a fresh time for each.
- Server.ChatServer.Drain: no producer runs while the queue drains, so no join or chat frame is queued in between.
- Server.ChatServer.Cleanup: all its "left" notices share one stamp. The code takes a fresh time for each.
- Server.ChatServer.Cleanup: it iterates over the entries of the snapshot, where the code iterates over the key list. Under atomic steps the two are the same.

=== FILE: fanout.dfy ===
/**
  What one broadcast does to a snapshot of the registry: which sockets are
  sent the frame, which clients a failed send removes, which stay, and the
  "left" notices and closed sockets those removals produce. Each function
  is given for the first `n` entries of the snapshot and defined by the
  n-th, so that it follows the broadcast loop one entry at a time; the
  whole-snapshot versions take n = |t|.
 */
module Fanout {
  import opened Wrappers
  import opened Frames
  import opened Registry

  /** The broadcast tries to send to c: its socket is not the excluded one (None excludes nobody). */
  predicate Targeted(c: Client, exclude: Option<Sock>) {
    Some(c.sock) != exclude
  }

  /** The broadcast tries to send to c and the send fails. */
  predicate Fails(c: Client, exclude: Option<Sock>, failing: set<Sock>) {
    Targeted(c, exclude) && c.sock in failing
  }

  /** The sockets sent the frame, in snapshot order. */
  function DeliveredUpTo(t: Table, exclude: Option<Sock>, failing: set<Sock>, n: nat): seq<Sock>
    requires n <= |t|
  {
    if n == 0 then []
    else
      var c := t[n - 1];
      DeliveredUpTo(t, exclude, failing, n - 1) + if Targeted(c, exclude) && c.sock !in failing then [c.sock] else []
  }

  /** The clients still registered afterwards, in their order. */
  function SurvivorsUpTo(t: Table, exclude: Option<Sock>, failing: set<Sock>, n: nat): Table
    requires n <= |t|
  {
    if n == 0 then []
    else
      var c := t[n - 1];
      SurvivorsUpTo(t, exclude, failing, n - 1) + if Fails(c, exclude, failing) then [] else [c]
  }

  /** The "left" notice a removal queues: it excludes nobody. */
  function Farewell(c: Client, stamp: string): Pending {
    Pending(LeaveNotice(c.name, stamp), None)
  }

  /** The notices queued for the clients whose send failed, in snapshot order. */
  function DropNoticesUpTo(t: Table, exclude: Option<Sock>, failing: set<Sock>, stamp: string, n: nat): seq<Pending>
    requires n <= |t|
  {
    if n == 0 then []
    else
      var c := t[n - 1];
      DropNoticesUpTo(t, exclude, failing, stamp, n - 1) + if Fails(c, exclude, failing) then [Farewell(c, stamp)] else []
  }

  /** The sockets closed because their send failed. */
  function DropSocksUpTo(t: Table, exclude: Option<Sock>, failing: set<Sock>, n: nat): set<Sock>
    requires n <= |t|
  {
    if n == 0 then {}
    else
      var c := t[n - 1];
      DropSocksUpTo(t, exclude, failing, n - 1) + if Fails(c, exclude, failing) then {c.sock} else {}
  }

  function Delivered(t: Table, exclude: Option<Sock>, failing: set<Sock>): seq<Sock> {
    DeliveredUpTo(t, exclude, failing, |t|)
  }

  function Survivors(t: Table, exclude: Option<Sock>, failing: set<Sock>): Table {
    SurvivorsUpTo(t, exclude, failing, |t|)
  }

  function DropNotices(t: Table, exclude: Option<Sock>, failing: set<Sock>, stamp: string): seq<Pending> {
    DropNoticesUpTo(t, exclude, failing, stamp, |t|)
  }

  function DropSocks(t: Table, exclude: Option<Sock>, failing: set<Sock>): set<Sock> {
    DropSocksUpTo(t, exclude, failing, |t|)
  }

  /** The notices queued when every client of a table is removed in order (shutdown). */
  function LeaveNotices(t: Table, stamp: string, n: nat): seq<Pending>
    requires n <= |t|
  {
    if n == 0 then [] else LeaveNotices(t, stamp, n - 1) + [Farewell(t[n - 1], stamp)]
  }

  /** The sockets of the first n clients of a table. */
  function Socks(t: Table, n: nat): set<Sock>
    requires n <= |t|
  {
    if n == 0 then {} else Socks(t, n - 1) + {t[n - 1].sock}
  }

  // ---- What a broadcast promises ------------------------------------------

  /** A socket receives the frame exactly when some client in the snapshot owns it, is not excluded, and its send does not fail. */
  lemma {:induction false} DeliveredIff(t: Table, exclude: Option<Sock>, failing: set<Sock>, n: nat, x: Sock)
    requires n <= |t|
    ensures x in DeliveredUpTo(t, exclude, failing, n) <==>
      exists k :: 0 <= k < n && t[k].sock == x && Targeted(t[k], exclude) && x !in failing
  {
    if n > 0 {
      DeliveredIff(t, exclude, failing, n - 1, x);
    }
  }

  /** The excluded socket is never sent its own frame. */
  lemma ExcludedNeverDelivered(t: Table, x: Sock, failing: set<Sock>)
    ensures x !in Delivered(t, Some(x), failing)
  {
    DeliveredIff(t, Some(x), failing, |t|, x);
  }

  /** Without an exclusion, every client whose send succeeds receives the frame. */
  lemma NoExclusionReachesAll(t: Table, failing: set<Sock>)
    ensures forall k :: 0 <= k < |t| && t[k].sock !in failing ==> t[k].sock in Delivered(t, None, failing)
  {
    forall k | 0 <= k < |t| && t[k].sock !in failing
      ensures t[k].sock in Delivered(t, None, failing)
    {
      DeliveredIff(t, None, failing, |t|, t[k].sock);
    }
  }

  /** A failed send removes that client and no other: the survivors are exactly the clients whose send did not fail. */
  lemma {:induction false} SurvivorsIff(t: Table, exclude: Option<Sock>, failing: set<Sock>, n: nat)
    requires n <= |t|
    ensures forall c :: c in SurvivorsUpTo(t, exclude, failing, n) <==> c in t[..n] && !Fails(c, exclude, failing)
  {
    if n > 0 {
      SurvivorsIff(t, exclude, failing, n - 1);
      assert t[..n] == t[..n - 1] + [t[n - 1]];
    }
  }

  /** A "left" notice is queued for a client exactly when its send failed. */
  lemma {:induction false} DropNoticesIff(t: Table, exclude: Option<Sock>, failing: set<Sock>, stamp: string, n: nat, p: Pending)
    requires n <= |t|
    ensures p in DropNoticesUpTo(t, exclude, failing, stamp, n) <==>
      exists k :: 0 <= k < n && Fails(t[k], exclude, failing) && p == Farewell(t[k], stamp)
  {
    if n > 0 {
      DropNoticesIff(t, exclude, failing, stamp, n - 1, p);
    }
  }

  /** A socket is closed by the broadcast exactly when it belongs to a client whose send failed. */
  lemma {:induction false} DropSocksIff(t: Table, exclude: Option<Sock>, failing: set<Sock>, n: nat, x: Sock)
    requires n <= |t|
    ensures x in DropSocksUpTo(t, exclude, failing, n) <==>
      exists k :: 0 <= k < n && Fails(t[k], exclude, failing) && x == t[k].sock
  {
    if n > 0 {
      DropSocksIff(t, exclude, failing, n - 1, x);
    }
  }

  /** The clients kept and the notices queued together number the snapshot entries. */
  lemma {:induction false} PartitionSize(t: Table, exclude: Option<Sock>, failing: set<Sock>, stamp: string, n: nat)
    requires n <= |t|
    ensures |SurvivorsUpTo(t, exclude, failing, n)| + |DropNoticesUpTo(t, exclude, failing, stamp, n)| == n
  {
    if n > 0 {
      PartitionSize(t, exclude, failing, stamp, n - 1);
    }
  }

  /** A broadcast only removes clients, so the registry never grows; a removal queues a notice in its place. */
  lemma SurvivorsShrink(t: Table, exclude: Option<Sock>, failing: set<Sock>, stamp: string)
    ensures forall c :: c in Survivors(t, exclude, failing) ==> c in t
    ensures |Survivors(t, exclude, failing)| + |DropNotices(t, exclude, failing, stamp)| == |t|
  {
    SurvivorsIff(t, exclude, failing, |t|);
    assert t[..|t|] == t;
    PartitionSize(t, exclude, failing, stamp, |t|);
  }

  // ---- Draining the queue --------------------------------------------------

  /**
    What the queue consumer does when it runs until the queue is empty,
    starting from registry t and queue q: it takes the oldest item,
    broadcasts it, appends the "left" notices of the failed sends and goes
    on. Gives the final registry, the items broadcast in order, and the
    sockets closed along the way. It ends because each round either removes
    a client or shortens the queue.
   */
  ghost function DrainRun(t: Table, q: seq<Pending>, failing: set<Sock>, stamp: string): (r: (Table, seq<Pending>, set<Sock>))
    decreases |t|, |q|
  {
    if q == [] then (t, [], {})
    else
      var p := q[0];
      SurvivorsShrink(t, p.exclude, failing, stamp);
      var rest := DrainRun(Survivors(t, p.exclude, failing), q[1..] + DropNotices(t, p.exclude, failing, stamp), failing, stamp);
      (rest.0, [p] + rest.1, DropSocks(t, p.exclude, failing) + rest.2)
  }

  /** The items waiting when the consumer starts are broadcast first, in the order they were queued. */
  lemma {:induction false} DrainRunFifo(t: Table, q: seq<Pending>, failing: set<Sock>, stamp: string)
    ensures q <= DrainRun(t, q, failing, stamp).1
    decreases |t|, |q|
  {
    if q != [] {
      var p := q[0];
      SurvivorsShrink(t, p.exclude, failing, stamp);
      var added := DropNotices(t, p.exclude, failing, stamp);
      DrainRunFifo(Survivors(t, p.exclude, failing), q[1..] + added, failing, stamp);
      assert q == [p] + q[1..];
    }
  }

  /** Draining never adds a client: the final registry holds only clients of the registry it started from. */
  lemma {:induction false} DrainRunShrinks(t: Table, q: seq<Pending>, failing: set<Sock>, stamp: string)
    ensures forall c :: c in DrainRun(t, q, failing, stamp).0 ==> c in t
    decreases |t|, |q|
  {
    if q != [] {
      var p := q[0];
      SurvivorsShrink(t, p.exclude, failing, stamp);
      DrainRunShrinks(Survivors(t, p.exclude, failing), q[1..] + DropNotices(t, p.exclude, failing, stamp), failing, stamp);
    }
  }

  /**
    Where the queue consumer stands, having started from registry t0, queue
    q0 and closed sockets gone0: it has broadcast done, and what is left of
    the run from the registry t and queue q it now has, with the sockets gone
    it has closed, ends as the whole run does.
   */
  ghost predicate Draining(t0: Table, q0: seq<Pending>, gone0: set<Sock>, failing: set<Sock>, stamp: string,
                           t: Table, q: seq<Pending>, done: seq<Pending>, gone: set<Sock>)
  {
    && DrainRun(t0, q0, failing, stamp).0 == DrainRun(t, q, failing, stamp).0
    && DrainRun(t0, q0, failing, stamp).1 == done + DrainRun(t, q, failing, stamp).1
    && gone0 + DrainRun(t0, q0, failing, stamp).2 == gone + DrainRun(t, q, failing, stamp).2
  }

  /**
    One round of the consumer keeps Draining: the oldest item is broadcast
    and the notices of its failed sends are queued. Each round removes a
    client or shortens the queue.
   */
  lemma DrainingStep(t0: Table, q0: seq<Pending>, gone0: set<Sock>, failing: set<Sock>, stamp: string,
                     t: Table, q: seq<Pending>, done: seq<Pending>, gone: set<Sock>,
                     t': Table, q': seq<Pending>, gone': set<Sock>)
    requires Draining(t0, q0, gone0, failing, stamp, t, q, done, gone) && q != []
    requires t' == Survivors(t, q[0].exclude, failing)
    requires q' == q[1..] + DropNotices(t, q[0].exclude, failing, stamp)
    requires gone' == gone + DropSocks(t, q[0].exclude, failing)
    ensures Draining(t0, q0, gone0, failing, stamp, t', q', done + [q[0]], gone')
    ensures |t'| < |t| || (|t'| == |t| && |q'| < |q|)
  {
    SurvivorsShrink(t, q[0].exclude, failing, stamp);
    var rest := DrainRun(t', q', failing, stamp);
    assert DrainRun(t, q, failing, stamp) == (rest.0, [q[0]] + rest.1, DropSocks(t, q[0].exclude, failing) + rest.2);
  }

  /** Once the queue is empty, the consumer has done the whole run. */
  lemma DrainingDone(t0: Table, q0: seq<Pending>, gone0: set<Sock>, failing: set<Sock>, stamp: string,
                     t: Table, done: seq<Pending>, gone: set<Sock>)
    requires Draining(t0, q0, gone0, failing, stamp, t, [], done, gone)
    ensures var r := DrainRun(t0, q0, failing, stamp); t == r.0 && done == r.1 && gone == gone0 + r.2
  {
    assert DrainRun(t, [], failing, stamp) == (t, [], {});
  }

  // ---- The loop steps -------------------------------------------------------

  /** The broadcast loop's step over an entry whose send fails: the registry as it stands loses that entry. */
  lemma DropStep(t: Table, i: nat, exclude: Option<Sock>, failing: set<Sock>)
    requires i < |t| && Fails(t[i], exclude, failing)
    requires UniqueNames(SurvivorsUpTo(t, exclude, failing, i) + t[i..])
    ensures var cur := SurvivorsUpTo(t, exclude, failing, i) + t[i..];
      && Find(cur, t[i].name) == Some(t[i])
      && Delete(cur, t[i].name) == SurvivorsUpTo(t, exclude, failing, i + 1) + t[i + 1..]
  {
    var kept := SurvivorsUpTo(t, exclude, failing, i);
    assert kept + t[i..] == kept + [t[i]] + t[i + 1..];
    FindDeleteAt(kept, t[i], t[i + 1..]);
  }

  /** The broadcast loop's step over an entry that is skipped or sent to successfully: the registry is unchanged. */
  lemma KeepStep(t: Table, i: nat, exclude: Option<Sock>, failing: set<Sock>)
    requires i < |t| && !Fails(t[i], exclude, failing)
    ensures SurvivorsUpTo(t, exclude, failing, i) + t[i..] == SurvivorsUpTo(t, exclude, failing, i + 1) + t[i + 1..]
  {
    assert t[i..] == [t[i]] + t[i + 1..];
  }

  /**
    Where a broadcast over snapshot t stands after its first i entries,
    given the registry, queue and closed sockets it started from (q0, gone0):
    the registry holds the survivors so far followed by the entries not yet
    visited, and the queue and the closed sockets have gained the notices
    and sockets of the failed sends so far.
   */
  ghost predicate Progress(t: Table, i: nat, exclude: Option<Sock>, failing: set<Sock>, stamp: string,
                           q0: seq<Pending>, gone0: set<Sock>, cur: Table, q: seq<Pending>, gone: set<Sock>)
  {
    && i <= |t|
    && cur == SurvivorsUpTo(t, exclude, failing, i) + t[i..]
    && q == q0 + DropNoticesUpTo(t, exclude, failing, stamp, i)
    && gone == gone0 + DropSocksUpTo(t, exclude, failing, i)
  }

  /** The broadcast loop's step over entry i keeps its progress: the entry goes if its send fails, with its notice and socket. */
  lemma ProgressStep(t: Table, i: nat, exclude: Option<Sock>, failing: set<Sock>, stamp: string,
                     q0: seq<Pending>, gone0: set<Sock>, cur: Table, q: seq<Pending>, gone: set<Sock>,
                     cur': Table, q': seq<Pending>, gone': set<Sock>)
    requires Progress(t, i, exclude, failing, stamp, q0, gone0, cur, q, gone) && i < |t|
    requires cur' == SurvivorsUpTo(t, exclude, failing, i + 1) + t[i + 1..]
    requires q' == q + if Fails(t[i], exclude, failing) then [Farewell(t[i], stamp)] else []
    requires gone' == gone + if Fails(t[i], exclude, failing) then {t[i].sock} else {}
    ensures Progress(t, i + 1, exclude, failing, stamp, q0, gone0, cur', q', gone')
  {
    NoticesStep(t, i, exclude, failing, stamp, q0);
    SocksStep(t, i, exclude, failing, gone0);
  }

  /** Unfolds the notices of a broadcast by one entry, as the loop step needs it. */
  lemma NoticesStep(t: Table, i: nat, exclude: Option<Sock>, failing: set<Sock>, stamp: string, q0: seq<Pending>)
    requires i < |t|
    ensures q0 + DropNoticesUpTo(t, exclude, failing, stamp, i + 1) ==
      q0 + DropNoticesUpTo(t, exclude, failing, stamp, i) + (if Fails(t[i], exclude, failing) then [Farewell(t[i], stamp)] else [])
  {
  }

  /** Unfolds the closed sockets of a broadcast by one entry, as the loop step needs it. */
  lemma SocksStep(t: Table, i: nat, exclude: Option<Sock>, failing: set<Sock>, gone0: set<Sock>)
    requires i < |t|
    ensures gone0 + DropSocksUpTo(t, exclude, failing, i + 1) ==
      gone0 + DropSocksUpTo(t, exclude, failing, i) + (if Fails(t[i], exclude, failing) then {t[i].sock} else {})
  {
  }

  /** The cleanup loop's step: the first remaining entry is what its name finds, and deleting it leaves the rest. */
  lemma CleanupStep(t: Table, i: nat)
    requires i < |t| && UniqueNames(t[i..])
    ensures Find(t[i..], t[i].name) == Some(t[i])
    ensures Delete(t[i..], t[i].name) == t[i + 1..]
  {
    assert [] + [t[i]] + t[i + 1..] == t[i..];
    FindDeleteAt([], t[i], t[i + 1..]);
  }
}

=== FILE: frames.dfy ===
/**
  The values that travel between the chat server and its peers: the JSON
  objects exchanged over a connection, the (message, excluded socket) pairs
  of the broadcast queue, and the display-name handshake.
 */
module Frames {
  import opened Wrappers

  /** A connected client socket, known only by its identity. */
  type Sock = nat

  /** The peer address that accept() reports: host and TCP port. */
  datatype Address = Address(host: string, port: nat)

  /**
    One JSON object as the server stores and forwards it. Every key may be
    absent: the three seeded history entries have no "type", and a client may
    send any object it likes. `time` is overwritten by the server on receipt.
   */
  datatype Frame = Frame(
    kind: Option<string>,
    sender: Option<string>,
    message: Option<string>,
    time: Option<string>)

  /** A frame whose "type" is "message": the only kind kept in the history. */
  predicate IsChat(f: Frame) {
    f.kind == Some("message")
  }

  /** A notice from the server itself, typed as an ordinary chat message. */
  function ServerNotice(text: string, stamp: string): Frame {
    Frame(Some("message"), Some("Server"), Some(text), Some(stamp))
  }

  function JoinNotice(name: string, stamp: string): Frame {
    ServerNotice(name + " has joined the chat", stamp)
  }

  function LeaveNotice(name: string, stamp: string): Frame {
    ServerNotice(name + " has left the chat", stamp)
  }

  /** An item of the broadcast queue: the frame and the socket it must skip. */
  datatype Pending = Pending(frame: Frame, exclude: Option<Sock>)

  /** The history the server starts with. */
  function SeedHistory(): seq<Frame> {
    [ Frame(None, Some("John"), Some("Hey there!"), Some("10:30 AM")),
      Frame(None, Some("Alice"), Some("Hi! How are you?"), Some("10:31 AM")),
      Frame(None, Some("John"), Some("I'm doing great, thanks!"), Some("10:32 AM")) ]
  }

  /** The frame sent once to a client right after its handshake. */
  datatype HistoryFrame = HistoryFrame(to: Sock, messages: seq<Frame>)

  /**
    The first thing read from a new connection: a JSON object, which may or
    may not carry a "username" key, or something that does not decode to an
    object (a failed read, invalid JSON, a JSON value without `.get`).
   */
  datatype Handshake = Hello(username: Option<string>) | BadHello

  /** What one `recv` in the per-client loop yields. */
  datatype Inbound =
    | EndOfStream          // recv returned no bytes
    | Undecodable          // the read failed, or the bytes are not a JSON object
    | Decoded(frame: Frame)

  /** One inbound read together with the clock readings the server takes for it. */
  datatype Recv = Recv(input: Inbound, now: nat, stamp: string)

  // ---- The fallback display name `User_<port>` -----------------------------

  function Digit(d: nat): char
    requires d < 10
  {
    ('0' as int + d) as char
  }

  /** The decimal numeral of `n`, as Python's str(int) writes it. */
  function Decimal(n: nat): (s: string)
    ensures |s| >= 1
    ensures forall i :: 0 <= i < |s| ==> '0' <= s[i] <= '9'
    decreases n
  {
    if n < 10 then [Digit(n)] else Decimal(n / 10) + [Digit(n % 10)]
  }

  /** Reads a numeral back: the inverse of Decimal. */
  function ParseDecimal(s: string): nat
    requires forall i :: 0 <= i < |s| ==> '0' <= s[i] <= '9'
  {
    if s == [] then 0
    else ParseDecimal(s[..|s| - 1]) * 10 + (s[|s| - 1] as int - '0' as int)
  }

  lemma {:induction false} ParseDecimalOfDecimal(n: nat)
    ensures ParseDecimal(Decimal(n)) == n
    decreases n
  {
    var s := Decimal(n);
    if n >= 10 {
      ParseDecimalOfDecimal(n / 10);
      assert s[..|s| - 1] == Decimal(n / 10);
    }
  }

  function FallbackName(port: nat): string {
    "User_" + Decimal(port)
  }

  /** The display name a handshake yields: the "username" value if the key is present. */
  function DisplayName(username: Option<string>, port: nat): string {
    match username
    case Some(u) => u
    case None => FallbackName(port)
  }

  /** Two nameless clients on different ports get different fallback names. */
  lemma FallbackNamesDistinct(p: nat, q: nat)
    requires p != q
    ensures FallbackName(p) != FallbackName(q)
  {
    if FallbackName(p) == FallbackName(q) {
      assert Decimal(p) == FallbackName(p)[5..];
      assert Decimal(q) == FallbackName(q)[5..];
      ParseDecimalOfDecimal(p);
      ParseDecimalOfDecimal(q);
    }
  }

  /** A username key, even an empty one, is taken as it is; the fallback is used only without the key. */
  lemma DisplayNameChoice(username: Option<string>, port: nat)
    ensures username.Some? ==> DisplayName(username, port) == username.value
    ensures username.None? ==> DisplayName(username, port)[..5] == "User_"
    ensures username.None? ==> ParseDecimal(DisplayName(username, port)[5..]) == port
  {
    if username.None? {
      var s := DisplayName(username, port);
      assert s[5..] == Decimal(port);
      ParseDecimalOfDecimal(port);
    }
  }
}

=== FILE: registry.dfy ===
/**
  The server's `clients` dict as a value: one entry per display name, kept in
  insertion order, which is the order in which Python iterates a dict.
  Assigning to an existing key replaces the entry where it stands; assigning
  to a new key appends; `del` takes the entry out.
 */
module Registry {
  import opened Wrappers
  import opened Frames

  /** A `clients` entry: its key and its info record {socket, address, last_active}. */
  datatype Client = Client(name: string, sock: Sock, addr: Address, lastActive: nat)

  type Table = seq<Client>

  function Names(t: Table): set<string> {
    if t == [] then {} else {t[0].name} + Names(t[1..])
  }

  /** Dict keys are unique. */
  ghost predicate UniqueNames(t: Table) {
    t == [] || (t[0].name !in Names(t[1..]) && UniqueNames(t[1..]))
  }

  /** A key is present exactly when some entry carries it. */
  lemma {:induction false} NamesIff(t: Table, n: string)
    ensures n in Names(t) <==> exists k :: 0 <= k < |t| && t[k].name == n
  {
    if t != [] {
      NamesIff(t[1..], n);
      if n in Names(t[1..]) {
        var k :| 0 <= k < |t[1..]| && t[1..][k].name == n;
        assert t[k + 1].name == n;
      }
      if exists k :: 0 <= k < |t| && t[k].name == n {
        var k :| 0 <= k < |t| && t[k].name == n;
        if k > 0 {
          assert t[1..][k - 1].name == n;
        }
      }
    }
  }

  /** The keys of a table with unique keys are pairwise distinct. */
  lemma {:induction false} UniqueNamesDistinct(t: Table, i: nat, j: nat)
    requires UniqueNames(t) && i < j < |t|
    ensures t[i].name != t[j].name
  {
    if i == 0 {
      NamesIff(t[1..], t[0].name);
      assert t[1..][j - 1] == t[j];
    } else {
      UniqueNamesDistinct(t[1..], i - 1, j - 1);
    }
  }

  /** `clients.get(name)`. */
  function Find(t: Table, n: string): (r: Option<Client>)
    ensures r.Some? <==> n in Names(t)
    ensures r.Some? ==> r.value in t && r.value.name == n
  {
    if t == [] then None
    else if t[0].name == n then Some(t[0])
    else Find(t[1..], n)
  }

  /** `clients[c.name] = c`. */
  function Put(t: Table, c: Client): Table {
    if t == [] then [c]
    else if t[0].name == c.name then [c] + t[1..]
    else [t[0]] + Put(t[1..], c)
  }

  /** `del clients[n]`. */
  function Delete(t: Table, n: string): Table {
    if t == [] then []
    else if t[0].name == n then Delete(t[1..], n)
    else [t[0]] + Delete(t[1..], n)
  }

  /** `clients[n]['last_active'] = now`: the info record is updated where it stands. */
  function Touch(t: Table, n: string, now: nat): Table {
    if t == [] then []
    else if t[0].name == n then [t[0].(lastActive := now)] + t[1..]
    else [t[0]] + Touch(t[1..], n, now)
  }

  // ---- Put ----------------------------------------------------------------

  /** After `clients[c.name] = c` the key maps to c and every other key is as before. */
  lemma {:induction false} FindPut(t: Table, c: Client, n: string)
    ensures Find(Put(t, c), n) == if n == c.name then Some(c) else Find(t, n)
  {
    if t != [] && t[0].name != c.name {
      FindPut(t[1..], c, n);
    }
  }

  lemma {:induction false} PutNames(t: Table, c: Client)
    ensures Names(Put(t, c)) == Names(t) + {c.name}
  {
    if t == [] {
    } else if t[0].name == c.name {
      assert ([c] + t[1..])[1..] == t[1..];
    } else {
      PutNames(t[1..], c);
      assert ([t[0]] + Put(t[1..], c))[1..] == Put(t[1..], c);
    }
  }

  lemma {:induction false} PutUnique(t: Table, c: Client)
    requires UniqueNames(t)
    ensures UniqueNames(Put(t, c))
  {
    if t == [] {
    } else if t[0].name == c.name {
    } else {
      PutUnique(t[1..], c);
      PutNames(t[1..], c);
    }
  }

  /**
    Python dict order: overwriting a key keeps the entry in its position and
    leaves all others in place; a new key goes to the end.
   */
  lemma {:induction false} PutOrder(t: Table, c: Client)
    ensures c.name !in Names(t) ==> Put(t, c) == t + [c]
    ensures c.name in Names(t) ==> |Put(t, c)| == |t|
    ensures c.name in Names(t) ==> forall i :: 0 <= i < |t| ==> Put(t, c)[i] == if t[i].name == c.name && c.name !in Names(t[..i]) then c else t[i]
  {
    if t != [] {
      PutOrder(t[1..], c);
      if t[0].name != c.name && c.name in Names(t) {
        forall i | 0 <= i < |t|
          ensures Put(t, c)[i] == if t[i].name == c.name && c.name !in Names(t[..i]) then c else t[i]
        {
          if i > 0 {
            assert t[1..][i - 1] == t[i];
            assert Names(t[..i]) == {t[0].name} + Names(t[1..][..i - 1]) by {
              assert t[..i][1..] == t[1..][..i - 1];
            }
          }
        }
      } else if t[0].name == c.name {
        forall i | 0 <= i < |t|
          ensures Put(t, c)[i] == if t[i].name == c.name && c.name !in Names(t[..i]) then c else t[i]
        {
          if i > 0 {
            assert t[0] in t[..i];
          }
        }
      }
    }
  }

  // ---- Delete -------------------------------------------------------------

  /** After `del clients[n]` the key is gone and every other key is as before. */
  lemma {:induction false} FindDelete(t: Table, n: string, m: string)
    ensures Find(Delete(t, n), m) == if m == n then None else Find(t, m)
  {
    if t != [] {
      FindDelete(t[1..], n, m);
    }
  }

  lemma {:induction false} DeleteNames(t: Table, n: string)
    ensures Names(Delete(t, n)) == Names(t) - {n}
  {
    if t != [] {
      DeleteNames(t[1..], n);
      if t[0].name != n {
        assert Delete(t, n)[1..] == Delete(t[1..], n);
      }
    }
  }

  /** The entries left after deletion are exactly the entries of the other keys. */
  lemma {:induction false} DeleteMembers(t: Table, n: string)
    ensures forall c :: c in Delete(t, n) <==> c in t && c.name != n
  {
    if t != [] {
      DeleteMembers(t[1..], n);
      assert forall c :: c in t <==> c == t[0] || c in t[1..];
    }
  }

  lemma {:induction false} DeleteUnique(t: Table, n: string)
    requires UniqueNames(t)
    ensures UniqueNames(Delete(t, n))
  {
    if t != [] {
      DeleteUnique(t[1..], n);
      if t[0].name != n {
        DeleteNames(t[1..], n);
      }
    }
  }

  /** Deleting an absent key changes nothing. */
  lemma {:induction false} DeleteAbsent(t: Table, n: string)
    requires n !in Names(t)
    ensures Delete(t, n) == t
  {
    if t != [] {
      DeleteAbsent(t[1..], n);
    }
  }

  /** Deleting twice is deleting once. */
  lemma DeleteIdempotent(t: Table, n: string)
    ensures Delete(Delete(t, n), n) == Delete(t, n)
  {
    DeleteNames(t, n);
    DeleteAbsent(Delete(t, n), n);
  }

  /** The entry in the middle of a table with unique keys is what its key finds, and deleting that key leaves the rest in order. */
  lemma FindDeleteAt(xs: Table, c: Client, ys: Table)
    requires UniqueNames(xs + [c] + ys)
    ensures Find(xs + [c] + ys, c.name) == Some(c)
    ensures Delete(xs + [c] + ys, c.name) == xs + ys
  {
    FindAt(xs, c, ys);
    DeleteAt(xs, c, ys);
  }

  /** With unique keys, the key of an entry finds that entry. */
  lemma {:induction false} FindAt(xs: Table, c: Client, ys: Table)
    requires UniqueNames(xs + [c] + ys)
    ensures Find(xs + [c] + ys, c.name) == Some(c)
  {
    var t := xs + [c] + ys;
    if xs != [] {
      assert t[1..] == xs[1..] + [c] + ys;
      assert t[0] == xs[0] && t[|xs|] == c;
      UniqueNamesDistinct(t, 0, |xs|);
      FindAt(xs[1..], c, ys);
    }
  }

  /** With unique keys, deleting an entry's key leaves the entries before and after it, in order. */
  lemma {:induction false} DeleteAt(xs: Table, c: Client, ys: Table)
    requires UniqueNames(xs + [c] + ys)
    ensures Delete(xs + [c] + ys, c.name) == xs + ys
  {
    var t := xs + [c] + ys;
    if xs == [] {
      assert t[1..] == ys;
      DeleteAbsent(ys, c.name);
    } else {
      assert t[1..] == xs[1..] + [c] + ys;
      assert t[0] == xs[0] && t[|xs|] == c;
      UniqueNamesDistinct(t, 0, |xs|);
      DeleteAt(xs[1..], c, ys);
      assert xs + ys == [xs[0]] + (xs[1..] + ys);
    }
  }

  // ---- Touch --------------------------------------------------------------

  /** Updating last_active changes that one entry's last_active and nothing else. */
  lemma {:induction false} FindTouch(t: Table, n: string, now: nat, m: string)
    ensures Find(Touch(t, n, now), m) ==
      if m == n && Find(t, n).Some? then Some(Find(t, n).value.(lastActive := now)) else Find(t, m)
  {
    if t != [] {
      FindTouch(t[1..], n, now, m);
    }
  }

  /** The last-active update rewrites the first entry of that key, where it stands, and leaves every other entry as it was. */
  lemma {:induction false} TouchShape(t: Table, n: string, now: nat)
    ensures |Touch(t, n, now)| == |t|
    ensures forall i :: 0 <= i < |t| ==>
      Touch(t, n, now)[i] == if t[i].name == n && n !in Names(t[..i]) then t[i].(lastActive := now) else t[i]
  {
    if t != [] {
      TouchShape(t[1..], n, now);
      if t[0].name != n {
        forall i | 0 <= i < |t|
          ensures Touch(t, n, now)[i] == if t[i].name == n && n !in Names(t[..i]) then t[i].(lastActive := now) else t[i]
        {
          if i > 0 {
            assert t[1..][i - 1] == t[i];
            assert Names(t[..i]) == {t[0].name} + Names(t[1..][..i - 1]) by {
              assert t[..i][1..] == t[1..][..i - 1];
            }
          }
        }
      } else {
        forall i | 0 <= i < |t|
          ensures Touch(t, n, now)[i] == if t[i].name == n && n !in Names(t[..i]) then t[i].(lastActive := now) else t[i]
        {
          if i > 0 {
            assert t[0] in t[..i];
          }
        }
      }
    }
  }

  /** Table b is table a with at most the last_active fields changed: same keys, sockets, addresses and positions. */
  predicate SameButLastActive(a: Table, b: Table) {
    |a| == |b| && forall i :: 0 <= i < |a| ==> b[i] == a[i].(lastActive := b[i].lastActive)
  }

  /** The last-active update changes no entry's key, socket, address or position: at most the last_active fields differ. */
  lemma TouchOnlyLastActive(t: Table, n: string, now: nat)
    ensures SameButLastActive(t, Touch(t, n, now))
  {
    TouchShape(t, n, now);
  }

  /** Changing only last_active fields twice changes only last_active fields. */
  lemma SameButLastActiveTrans(a: Table, b: Table, c: Table)
    requires SameButLastActive(a, b) && SameButLastActive(b, c)
    ensures SameButLastActive(a, c)
  {
  }

  /**
    Over a client's receive loop: client n is still registered on socket s,
    the other entries are those of t0, and at most last_active fields differ.
   */
  ghost predicate KeptOn(t0: Table, t: Table, n: string, s: Sock) {
    && n in Names(t) && Find(t, n).value.sock == s
    && Delete(t, n) == Delete(t0, n)
    && SameButLastActive(t0, t)
  }

  /** One more step that keeps client n on socket s and changes only last_active fields keeps KeptOn. */
  lemma KeptOnStep(t0: Table, t1: Table, t2: Table, n: string, s: Sock)
    requires KeptOn(t0, t1, n, s)
    requires Delete(t2, n) == Delete(t1, n) && SameButLastActive(t1, t2)
    requires n in Names(t1) && Find(t1, n).value.sock == s ==> n in Names(t2) && Find(t2, n).value.sock == s
    ensures KeptOn(t0, t2, n, s)
  {
    SameButLastActiveTrans(t0, t1, t2);
  }

  lemma {:induction false} TouchNames(t: Table, n: string, now: nat)
    ensures Names(Touch(t, n, now)) == Names(t)
    ensures UniqueNames(t) ==> UniqueNames(Touch(t, n, now))
  {
    TouchShape(t, n, now);
    if t != [] {
      TouchNames(t[1..], n, now);
    }
  }

  /** A departing client's last_active update is forgotten once the entry is deleted. */
  lemma {:induction false} DeleteTouch(t: Table, n: string, now: nat)
    ensures Delete(Touch(t, n, now), n) == Delete(t, n)
  {
    if t != [] {
      if t[0].name == n {
        assert Touch(t, n, now)[1..] == t[1..];
      } else {
        DeleteTouch(t[1..], n, now);
      }
    }
  }

  /** Touching a present entry keeps it present, on the same socket, and is undone by deleting it. */
  lemma TouchKeeps(t: Table, n: string, now: nat)
    requires n in Names(t)
    ensures n in Names(Touch(t, n, now))
    ensures Find(Touch(t, n, now), n).value.sock == Find(t, n).value.sock
    ensures Delete(Touch(t, n, now), n) == Delete(t, n)
  {
    FindTouch(t, n, now, n);
    DeleteTouch(t, n, now);
  }
}

=== FILE: server.dfy ===
/**
  The chat server's bookkeeping: the `clients` registry with its parallel
  `client_locks`, the `message_history` log and the broadcast queue. Each
  method is one step of the server as the threads that call it perform it,
  taken as atomic; the threads and locks only serialise these steps.
 */
module Server {
  import opened Wrappers
  import opened Frames
  import opened Registry
  import opened Fanout
  import opened Session

  /** A per-client lock: only its identity matters here. */
  class Lock {
    constructor () {}
  }

  /** What a successful handshake yields: the display name and the history frame sent to the newcomer. */
  datatype Joined = Joined(name: string, greeting: HistoryFrame)

  class ChatServer {
    var clients: Table
    var clientLocks: map<string, Lock>
    var history: seq<Frame>
    var queue: seq<Pending>
    /** The client sockets the server has closed. */
    var closed: set<Sock>

    /** Keys are unique and both dicts have the same keys. */
    ghost predicate Valid()
      reads this
    {
      UniqueNames(clients) && Names(clients) == clientLocks.Keys
    }

    constructor ()
      ensures Valid()
      ensures clients == [] && clientLocks == map[] && queue == [] && closed == {}
      ensures history == SeedHistory()
    {
      clients := [];
      clientLocks := map[];
      history := SeedHistory();
      queue := [];
      closed := {};
    }

    /** The history frame for a newly joined client: the whole log, in append order. */
    method SendMessageHistory(sock: Sock) returns (h: HistoryFrame)
      ensures h.to == sock && h.messages == history
    {
      h := HistoryFrame(sock, history);
    }

    /**
      The handshake and registration of a new connection. A handshake that
      does not decode closes the socket and registers nothing. Otherwise the
      name is stored with a fresh lock, replacing any entry of the same name
      where it stands, the newcomer is sent the history, and a join notice
      that skips the newcomer is queued. The history itself is untouched.
     */
    method Register(sock: Sock, addr: Address, hello: Handshake, now: nat, stamp: string)
      returns (joined: Option<Joined>)
      requires Valid()
      modifies this
      ensures Valid()
      ensures history == old(history)
      ensures hello.BadHello? ==>
        joined == None && clients == old(clients) && clientLocks == old(clientLocks) &&
        queue == old(queue) && closed == old(closed) + {sock}
      ensures hello.Hello? ==>
        var name := DisplayName(hello.username, addr.port);
        && joined == Some(Joined(name, HistoryFrame(sock, old(history))))
        && clients == Put(old(clients), Client(name, sock, addr, now))
        && clientLocks.Keys == old(clientLocks).Keys + {name}
        && fresh(clientLocks[name])
        && (forall n :: n in old(clientLocks) && n != name ==> clientLocks[n] == old(clientLocks)[n])
        && queue == old(queue) + [Pending(JoinNotice(name, stamp), Some(sock))]
        && closed == old(closed)
    {
      if hello.BadHello? {
        closed := closed + {sock};
        return None;
      }
      var name := DisplayName(hello.username, addr.port);
      var lock := new Lock();
      clientLocks := clientLocks[name := lock];
      var c := Client(name, sock, addr, now);
      PutNames(clients, c);
      PutUnique(clients, c);
      clients := Put(clients, c);
      var greeting := SendMessageHistory(sock);
      queue := queue + [Pending(JoinNotice(name, stamp), Some(sock))];
      joined := Some(Joined(name, greeting));
    }

    /**
      Deregistration. An absent name changes nothing. A present one has its
      socket closed, its entry and lock deleted, and exactly one "left"
      notice queued without exclusion; the history is untouched.
     */
    method Remove(name: string, stamp: string)
      requires Valid()
      modifies this
      ensures Valid()
      ensures history == old(history)
      ensures name !in Names(old(clients)) ==>
        clients == old(clients) && clientLocks == old(clientLocks) &&
        queue == old(queue) && closed == old(closed)
      ensures name in Names(old(clients)) ==>
        && clients == Delete(old(clients), name)
        && clientLocks == old(clientLocks) - {name}
        && queue == old(queue) + [Pending(LeaveNotice(name, stamp), None)]
        && closed == old(closed) + {Find(old(clients), name).value.sock}
    {
      if name in Names(clients) {
        var c := Find(clients, name).value;
        closed := closed + {c.sock};
        DeleteNames(clients, name);
        DeleteUnique(clients, name);
        clients := Delete(clients, name);
        clientLocks := clientLocks - {name};
        queue := queue + [Pending(LeaveNotice(name, stamp), None)];
      }
    }

    /** A second removal of the same name (a failed send and the receive loop's exit both remove) has no further effect. */
    method RemoveTwice(name: string, stamp: string, laterStamp: string)
      requires Valid()
      modifies this
      ensures Valid()
      ensures clients == Delete(old(clients), name)
      ensures clientLocks == old(clientLocks) - {name}
      ensures history == old(history)
      ensures name in Names(old(clients)) ==>
        queue == old(queue) + [Pending(LeaveNotice(name, stamp), None)] &&
        closed == old(closed) + {Find(old(clients), name).value.sock}
      ensures name !in Names(old(clients)) ==> queue == old(queue) && closed == old(closed)
    {
      Remove(name, stamp);
      DeleteNames(old(clients), name);
      if name !in Names(old(clients)) {
        DeleteAbsent(old(clients), name);
      }
      Remove(name, laterStamp);
    }

    /**
      One step of a client's receive loop for `name` on socket `sock`. A read
      that yields no object ends the loop. Otherwise the frame is stamped;
      if the name is no longer registered the lock lookup fails and the loop
      ends; else that client's last_active is updated; a frame without
      "type" then ends the loop; one with it is appended to the history if
      its type is "message", and in every case is queued excluding `sock`.
     */
    method HandleFrame(name: string, sock: Sock, r: Recv) returns (go: bool)
      requires Valid()
      modifies this
      ensures Valid()
      ensures go <==> name in old(clientLocks) && Continues(r)
      ensures clientLocks == old(clientLocks) && closed == old(closed)
      ensures clients ==
        if name in old(clientLocks) && r.input.Decoded? then Touch(old(clients), name, r.now) else old(clients)
      ensures Delete(clients, name) == Delete(old(clients), name)
      ensures SameButLastActive(old(clients), clients)
      ensures name in Names(old(clients)) && Find(old(clients), name).value.sock == sock ==>
        name in Names(clients) && Find(clients, name).value.sock == sock
      ensures history == old(history) + if go && IsChat(r.input.frame) then [Stamped(r)] else []
      ensures queue == old(queue) + if go then [Pending(Stamped(r), Some(sock))] else []
    {
      if !r.input.Decoded? {
        return false;
      }
      var frame := Stamped(r);
      if name !in clientLocks {
        return false;
      }
      TouchNames(clients, name, r.now);
      TouchKeeps(clients, name, r.now);
      TouchOnlyLastActive(clients, name, r.now);
      clients := Touch(clients, name, r.now);
      if frame.kind.None? {
        return false;
      }
      if IsChat(frame) {
        history := history + [frame];
      }
      queue := queue + [Pending(frame, Some(sock))];
      go := true;
    }

    /**
      The `while True` part of a client's receive loop for the registered
      `name` on socket `sock`, over the reads it gets until its connection
      ends (running out of reads counts as end of stream). It handles the
      first `k` reads, `k` being where the first read that ends the loop
      stands: each is appended to the history if typed "message" and every
      one is queued excluding `sock`, in order. The client stays registered
      on `sock`; only its last_active changes.
     */
    method ReceiveLoop(name: string, sock: Sock, inputs: seq<Recv>) returns (k: nat)
      requires Valid()
      requires name in Names(clients) && Find(clients, name).value.sock == sock
      modifies this
      ensures Valid()
      ensures k == Consumed(inputs)
      ensures name in Names(clients) && Find(clients, name).value.sock == sock
      ensures Delete(clients, name) == Delete(old(clients), name)
      ensures SameButLastActive(old(clients), clients)
      ensures clientLocks == old(clientLocks) && closed == old(closed)
      ensures history == old(history) + ChatLog(inputs, k)
      ensures queue == old(queue) + Echoes(inputs, sock, k)
    {
      k := 0;
      var go := true;
      while go && k < |inputs|
        invariant 0 <= k <= |inputs|
        invariant Valid()
        invariant Handled(inputs, sock, k, go, old(history), old(queue), history, queue)
        invariant KeptOn(old(clients), clients, name, sock)
        invariant clientLocks == old(clientLocks) && closed == old(closed)
        decreases |inputs| - k, if go then 1 else 0
      {
        go := ReceiveStep(name, sock, inputs, k, old(clients), old(history), old(queue));
        k := k + if go then 1 else 0;
      }
    }

    /**
      The receive loop's turn for read k, the loop having gone on so far
      from registry t0, history h0 and queue q0: the frame is handled, and
      the loop's state moves past it exactly when it continues.
     */
    method ReceiveStep(name: string, sock: Sock, inputs: seq<Recv>, k: nat,
                       ghost t0: Table, ghost h0: seq<Frame>, ghost q0: seq<Pending>) returns (go: bool)
      requires Valid() && k < |inputs|
      requires Handled(inputs, sock, k, true, h0, q0, history, queue)
      requires KeptOn(t0, clients, name, sock)
      modifies this
      ensures Valid()
      ensures Handled(inputs, sock, k + (if go then 1 else 0), go, h0, q0, history, queue)
      ensures KeptOn(t0, clients, name, sock)
      ensures clientLocks == old(clientLocks) && closed == old(closed)
    {
      go := HandleFrame(name, sock, inputs[k]);
      KeptOnStep(t0, old(clients), clients, name, sock);
      HandledStep(inputs, sock, k, go, h0, q0, old(history), old(queue), history, queue);
    }

    /**
      A client's whole receive thread. If the name is not registered when it
      starts, nothing happens. Otherwise it runs the receive loop on the
      client's socket and then removes the client, which closes the socket
      and queues its "left" notice. Every other client is as before.
     */
    method HandleClient(name: string, inputs: seq<Recv>, leaveStamp: string)
      requires Valid()
      modifies this
      ensures Valid()
      ensures name !in Names(clients)
      ensures name !in Names(old(clients)) ==>
        clients == old(clients) && clientLocks == old(clientLocks) && history == old(history) &&
        queue == old(queue) && closed == old(closed)
      ensures name in Names(old(clients)) ==>
        var sock := Find(old(clients), name).value.sock;
        var handled := Consumed(inputs);
        && clients == Delete(old(clients), name)
        && clientLocks == old(clientLocks) - {name}
        && history == old(history) + ChatLog(inputs, handled)
        && queue == old(queue) + Echoes(inputs, sock, handled) + [Pending(LeaveNotice(name, leaveStamp), None)]
        && closed == old(closed) + {sock}
    {
      var info := Find(clients, name);
      if info.None? {
        return;
      }
      var sock := info.value.sock;
      var k := ReceiveLoop(name, sock, inputs);
      DeleteNames(clients, name);
      Remove(name, leaveStamp);
    }

    /**
      Sends one frame to the registry as it stands when the broadcast begins,
      in registry order, skipping the client whose socket is `exclude`. A
      send to a socket in `failing` fails and removes that client, and the
      broadcast carries on with the rest. Returns the sockets sent the frame.
     */
    method Broadcast(frame: Frame, exclude: Option<Sock>, failing: set<Sock>, stamp: string)
      returns (delivered: seq<Sock>)
      requires Valid()
      modifies this
      ensures Valid()
      ensures delivered == Delivered(old(clients), exclude, failing)
      ensures clients == Survivors(old(clients), exclude, failing)
      ensures forall n :: n in clientLocks ==> n in old(clientLocks) && clientLocks[n] == old(clientLocks)[n]
      ensures queue == old(queue) + DropNotices(old(clients), exclude, failing, stamp)
      ensures closed == old(closed) + DropSocks(old(clients), exclude, failing)
      ensures history == old(history)
    {
      var snapshot := clients;
      delivered := [];
      var i := 0;
      while i < |snapshot|
        invariant 0 <= i <= |snapshot|
        invariant Valid()
        invariant Progress(snapshot, i, exclude, failing, stamp, old(queue), old(closed), clients, queue, closed)
        invariant delivered == DeliveredUpTo(snapshot, exclude, failing, i)
        invariant forall n :: n in clientLocks ==> n in old(clientLocks) && clientLocks[n] == old(clientLocks)[n]
        invariant history == old(history)
      {
        ghost var (cur, q, gone) := (clients, queue, closed);
        var sent := SendTo(snapshot, i, exclude, failing, stamp);
        ProgressStep(snapshot, i, exclude, failing, stamp, old(queue), old(closed), cur, q, gone, clients, queue, closed);
        delivered := delivered + sent;
        i := i + 1;
      }
    }

    /**
      The broadcast's turn for entry i of its snapshot, the registry as it
      stands being the survivors of the entries before it followed by the
      rest. An excluded entry is skipped. Otherwise the frame is sent; a
      failed send removes that client, which closes its socket and queues
      its "left" notice. Returns the socket written to, if any.
     */
    method SendTo(snapshot: Table, i: nat, exclude: Option<Sock>, failing: set<Sock>, stamp: string)
      returns (sent: seq<Sock>)
      requires Valid()
      requires i < |snapshot| && clients == SurvivorsUpTo(snapshot, exclude, failing, i) + snapshot[i..]
      modifies this
      ensures Valid()
      ensures sent == if Targeted(snapshot[i], exclude) && snapshot[i].sock !in failing then [snapshot[i].sock] else []
      ensures clients == SurvivorsUpTo(snapshot, exclude, failing, i + 1) + snapshot[i + 1..]
      ensures forall n :: n in clientLocks ==> n in old(clientLocks) && clientLocks[n] == old(clientLocks)[n]
      ensures queue == old(queue) + if Fails(snapshot[i], exclude, failing) then [Farewell(snapshot[i], stamp)] else []
      ensures closed == old(closed) + if Fails(snapshot[i], exclude, failing) then {snapshot[i].sock} else {}
      ensures history == old(history)
    {
      var c := snapshot[i];
      if !Targeted(c, exclude) {
        KeepStep(snapshot, i, exclude, failing);
        return [];
      }
      if c.sock in failing {
        DropStep(snapshot, i, exclude, failing);
        Remove(c.name, stamp);
        return [];
      }
      KeepStep(snapshot, i, exclude, failing);
      sent := [c.sock];
    }

    /**
      One step of the queue consumer: take the oldest queued item, if any,
      and broadcast it. Nothing happens on an empty queue (the consumer waits).
     */
    method ProcessOne(failing: set<Sock>, stamp: string)
      returns (item: Option<Pending>, delivered: seq<Sock>)
      requires Valid()
      modifies this
      ensures Valid()
      ensures history == old(history)
      ensures forall n :: n in clientLocks ==> n in old(clientLocks) && clientLocks[n] == old(clientLocks)[n]
      ensures old(queue) == [] ==>
        item == None && delivered == [] && clients == old(clients) && clientLocks == old(clientLocks)
        && queue == [] && closed == old(closed)
      ensures old(queue) != [] ==>
        var p := old(queue)[0];
        && item == Some(p)
        && delivered == Delivered(old(clients), p.exclude, failing)
        && clients == Survivors(old(clients), p.exclude, failing)
        && queue == old(queue)[1..] + DropNotices(old(clients), p.exclude, failing, stamp)
        && closed == old(closed) + DropSocks(old(clients), p.exclude, failing)
    {
      if queue == [] {
        return None, [];
      }
      var p := queue[0];
      queue := queue[1..];
      item := Some(p);
      delivered := Broadcast(p.frame, p.exclude, failing, stamp);
    }

    /**
      The queue consumer run until the queue is empty. Items are broadcast
      in the order they were queued: what was queued at the start comes
      first, followed by the "left" notices that failed sends add. The final
      registry, the items broadcast and the sockets closed are those of
      DrainRun. Clients are only ever removed, never added, and so are their
      locks.
     */
    method Drain(failing: set<Sock>, stamp: string) returns (processed: seq<Pending>)
      requires Valid()
      modifies this
      ensures Valid()
      ensures queue == []
      ensures var r := DrainRun(old(clients), old(queue), failing, stamp);
        clients == r.0 && processed == r.1 && closed == old(closed) + r.2
      ensures old(queue) <= processed
      ensures history == old(history)
      ensures forall c :: c in clients ==> c in old(clients)
      ensures forall n :: n in clientLocks ==> n in old(clientLocks) && clientLocks[n] == old(clientLocks)[n]
    {
      processed := [];
      while queue != []
        invariant Valid()
        invariant Draining(old(clients), old(queue), old(closed), failing, stamp, clients, queue, processed, closed)
        invariant history == old(history)
        invariant forall n :: n in clientLocks ==> n in old(clientLocks) && clientLocks[n] == old(clientLocks)[n]
        decreases |clients|, |queue|
      {
        var p := queue[0];
        ghost var before, pending, gone := clients, queue, closed;
        var item, _ := ProcessOne(failing, stamp);
        DrainingStep(old(clients), old(queue), old(closed), failing, stamp,
                     before, pending, processed, gone, clients, queue, closed);
        processed := processed + [p];
      }
      DrainingDone(old(clients), old(queue), old(closed), failing, stamp, clients, processed, closed);
      DrainRunFifo(old(clients), old(queue), failing, stamp);
      DrainRunShrinks(old(clients), old(queue), failing, stamp);
    }

    /**
      Shutdown: every client registered when cleanup starts is removed, in
      registry order, so the registry ends empty, each socket is closed and
      one "left" notice per client is queued.
     */
    method Cleanup(stamp: string)
      requires Valid()
      modifies this
      ensures Valid()
      ensures clients == [] && clientLocks == map[]
      ensures queue == old(queue) + LeaveNotices(old(clients), stamp, |old(clients)|)
      ensures closed == old(closed) + Socks(old(clients), |old(clients)|)
      ensures history == old(history)
    {
      var snapshot := clients;
      var i := 0;
      while i < |snapshot|
        invariant 0 <= i <= |snapshot|
        invariant Valid()
        invariant clients == snapshot[i..]
        invariant queue == old(queue) + LeaveNotices(snapshot, stamp, i)
        invariant closed == old(closed) + Socks(snapshot, i)
        invariant history == old(history)
      {
        CleanupStep(snapshot, i);
        Remove(snapshot[i].name, stamp);
        i := i + 1;
      }
      assert clientLocks.Keys == {};
    }
  }
}

=== FILE: session.dfy ===
/**
  What one client's receive loop does with the reads it gets, as functions
  of that sequence of reads: how many frames it handles before it stops,
  which of them enter the history, and which are queued for broadcast.
 */
module Session {
  import opened Wrappers
  import opened Frames

  /** The loop handles this read and carries on: a decoded object that has a "type" key. */
  predicate Continues(r: Recv) {
    r.input.Decoded? && r.input.frame.kind.Some?
  }

  /** The frame as the server keeps it: its "time" replaced by the server's stamp. */
  function Stamped(r: Recv): (f: Frame)
    requires r.input.Decoded?
    ensures f.kind == r.input.frame.kind && f.sender == r.input.frame.sender
    ensures f.message == r.input.frame.message && f.time == Some(r.stamp)
  {
    r.input.frame.(time := Some(r.stamp))
  }

  /** The number of reads handled before the loop stops: the first read that does not continue ends it. */
  function Consumed(rs: seq<Recv>): (k: nat)
    ensures k <= |rs|
    ensures forall j :: 0 <= j < k ==> Continues(rs[j])
    ensures k < |rs| ==> !Continues(rs[k])
  {
    if rs == [] || !Continues(rs[0]) then 0 else 1 + Consumed(rs[1..])
  }

  /** The frames the first n reads add to the history, in order: only those typed "message". */
  function ChatLog(rs: seq<Recv>, n: nat): seq<Frame>
    requires n <= |rs|
  {
    if n == 0 then []
    else
      var r := rs[n - 1];
      ChatLog(rs, n - 1) + if Continues(r) && IsChat(r.input.frame) then [Stamped(r)] else []
  }

  /** The queue items the first n reads add, in order: every handled frame, excluding the sender's socket. */
  function Echoes(rs: seq<Recv>, sock: Sock, n: nat): seq<Pending>
    requires n <= |rs|
  {
    if n == 0 then []
    else
      var r := rs[n - 1];
      Echoes(rs, sock, n - 1) + if Continues(r) then [Pending(Stamped(r), Some(sock))] else []
  }

  /** The chat frames among queued items, in order. */
  function ChatFrames(ps: seq<Pending>): seq<Frame> {
    if ps == [] then []
    else
      var p := ps[|ps| - 1];
      ChatFrames(ps[..|ps| - 1]) + if IsChat(p.frame) then [p.frame] else []
  }

  /** The history gains exactly the "message"-typed frames among those queued, in the same order. */
  lemma {:induction false} ChatLogIsChatEchoes(rs: seq<Recv>, sock: Sock, n: nat)
    requires n <= |rs|
    ensures ChatLog(rs, n) == ChatFrames(Echoes(rs, sock, n))
  {
    if n > 0 {
      ChatLogIsChatEchoes(rs, sock, n - 1);
      var prev := Echoes(rs, sock, n - 1);
      var r := rs[n - 1];
      if Continues(r) {
        var p := Pending(Stamped(r), Some(sock));
        var e := prev + [p];
        assert e[..|e| - 1] == prev;
        assert Echoes(rs, sock, n) == e;
        assert ChatFrames(e) == ChatFrames(prev) + if IsChat(p.frame) then [p.frame] else [];
      } else {
        assert Echoes(rs, sock, n) == prev;
        assert ChatLog(rs, n) == ChatLog(rs, n - 1);
      }
    }
  }

  /** Every queued echo excludes its sender, every history entry so produced is a chat frame carrying the server's stamp of one of the reads, and no read is queued twice. */
  lemma {:induction false} SessionOutputs(rs: seq<Recv>, sock: Sock, n: nat)
    requires n <= |rs|
    ensures forall p :: p in Echoes(rs, sock, n) ==> p.exclude == Some(sock)
    ensures forall f :: f in ChatLog(rs, n) ==> IsChat(f)
    ensures forall f :: f in ChatLog(rs, n) ==> exists j :: 0 <= j < n && rs[j].input.Decoded? && f == Stamped(rs[j])
    ensures |Echoes(rs, sock, n)| <= n
  {
    if n > 0 {
      SessionOutputs(rs, sock, n - 1);
      var r := rs[n - 1];
      if Continues(r) && IsChat(r.input.frame) {
        assert ChatLog(rs, n) == ChatLog(rs, n - 1) + [Stamped(r)];
      }
    }
  }

  /** The receive loop's step over read k: the log and the echoes extend by what that read contributes, if the loop handles it. */
  lemma SessionStep(rs: seq<Recv>, k: nat, sock: Sock, h: seq<Frame>, q: seq<Pending>)
    requires k < |rs|
    ensures h + ChatLog(rs, k + (if Continues(rs[k]) then 1 else 0)) ==
      h + ChatLog(rs, k) + (if Continues(rs[k]) && IsChat(rs[k].input.frame) then [Stamped(rs[k])] else [])
    ensures q + Echoes(rs, sock, k + (if Continues(rs[k]) then 1 else 0)) ==
      q + Echoes(rs, sock, k) + (if Continues(rs[k]) then [Pending(Stamped(rs[k]), Some(sock))] else [])
  {
  }

  /**
    Where the receive loop stands after k reads, go telling whether it goes
    on: it has not passed the read that ends it, it has reached that read if
    it stopped, and the history and the queue have grown from h0 and q0 by
    the log and the echoes of the reads handled so far.
   */
  ghost predicate Handled(rs: seq<Recv>, sock: Sock, k: nat, go: bool,
                          h0: seq<Frame>, q0: seq<Pending>, h: seq<Frame>, q: seq<Pending>)
  {
    && k <= Consumed(rs)
    && (!go ==> k == Consumed(rs))
    && h == h0 + ChatLog(rs, k)
    && q == q0 + Echoes(rs, sock, k)
  }

  /** Handling read k keeps Handled: the loop moves past it exactly when it continues, logging and echoing it. */
  lemma HandledStep(rs: seq<Recv>, sock: Sock, k: nat, go: bool,
                    h0: seq<Frame>, q0: seq<Pending>, h: seq<Frame>, q: seq<Pending>, h': seq<Frame>, q': seq<Pending>)
    requires Handled(rs, sock, k, true, h0, q0, h, q) && k < |rs|
    requires go <==> Continues(rs[k])
    requires h' == h + if go && IsChat(rs[k].input.frame) then [Stamped(rs[k])] else []
    requires q' == q + if go then [Pending(Stamped(rs[k]), Some(sock))] else []
    ensures Handled(rs, sock, k + (if go then 1 else 0), go, h0, q0, h', q')
  {
    SessionStep(rs, k, sock, h0, q0);
  }
}

=== FILE: wrappers.dfy ===
/** The optional value used wherever the server's JSON objects may lack a key
    or a queued message carries no excluded socket. */
module Wrappers {

  datatype Option<+T> = None | Some(value: T)
}
